=== FILE: README.md ===
# Learning switch core, modelled in Dafny

This project models the switching logic of a DPDK Ethernet learning switch
(`main.c`, with the device record of `main.h`). The switch bridges frames
between physical NIC ports and virtual (vhost) devices. It learns which device
each source hardware address lives behind. A frame to a learned address is
unicast; any other frame is broadcast.

The model is a pure state machine over three pieces of state, kept in the
`SwitchState.Switch` record:

- the device list `Dev_list`: a sequence of `Device(virtual, id, state)`
  records in insertion order. A device's identity is the pair
  `DevKey(virtual, id)`, because port ids and vhost vids overlap;
- the MAC-to-output table `Mac_output_map`: an abstract `rte_hash` of capacity
  256 (`MacTable.MacMap`). It maps 6-byte addresses to positions in
  `[0, 256)`, and no two addresses share a position;
- `Output_table`: a length-256 sequence of optional device identities.

Transitions are pure functions:

- port initialisation and the vhost attach callback (`PortInit`, `NewVdev`);
- source-address learning (`LearnMacAddress`);
- the two phases of the vhost detach callback (`MarkClosing`, then
  `RemoveDevice`, composed in `DestroyVdev`).

The forwarding decision (`ForwardPacket`) returns the buffer operations the C
code performs, in order: vhost enqueues, port transmits and mbuf frees. The
switch invariant `SwitchState.Valid` says:

- no identity is listed twice;
- physical ports stay READY;
- a position is stored in the table exactly when its output entry is non-NULL;
- every non-NULL output entry names a listed device.

Learning and both detach phases keep this invariant. Attaching keeps it
when the new device's identity is not yet listed, which DPDK's unique port
and vid numbering provides (`AttachPreservesValid`). The invariant is what
makes the unguarded dereference of a lookup hit at main.c:386 safe.

Modules: `Wrappers` (Option), `MacAddress` (addresses, `mac_to_uchar`),
`MacTable` (the abstract hash table), `Devices` (device records and list
search), `SwitchState` (state, invariant, control-plane transitions) and
`Forwarding` (forwarding decision, per-frame step, forwarding lemmas).

In these places the model follows the code as written, not an idealised learning switch:

- On a lookup hit there is no fallback to broadcast when the entry is stale.
  The code dereferences the entry unconditionally. The model instead requires
  the entry to resolve (`HitResolves`), and proves that the invariant
  guarantees it.
- In a broadcast only virtual devices are checked for CLOSING
  (main.c:368-379). A physical device is sent a clone whatever its state.
- In a broadcast the ingress device is skipped (main.c:365). The code
  compares pointers, the model compares identities; the two agree because
  identities are unique (`SkipByIdentity`).
- A unicast is not checked against the ingress device. A frame addressed to
  an address learned on its own ingress device goes back out of that device
  (`SelfAddressedReturns`).
- When the table is full, a new address is rejected (-1) and nothing is
  evicted. `rte_hash_add_key` fails and `learn_mac_address` gives up.
- The hash library of the vhost API this code is written against takes a
  free position before it searches for the key. So with no free position,
  adding an address that is already stored fails too: `learn_mac_address`
  returns -1, and an address that moved to another device stays bound to
  the old one.

## Model

| member | source | states |
|---|---|---|
| MacAddress.MacToUchar | main.c:296-304 | `mac_to_uchar` returns `init_val` XOR-ed with the exclusive-or of all the key's bytes |
| MacAddress.MacHash | main.c:495-501 | the table's hash (`mac_to_uchar` with `init_val` 0) of a 6-byte address is below 256 and equals the XOR of its bytes |
| MacAddress.XorAllPermutation | main.c:296-304 | the hash does not depend on byte order: any rearrangement of the bytes gives the same value |
| MacTable.Lookup | main.c:360 | `rte_hash_lookup`: a hit exactly when the address is stored, returning its stored position |
| MacTable.LookupAfterAdd | main.c:319-325 | after a successful add, a lookup finds the address at the returned position and answers every other address as before |
| MacTable.LookupAfterDel | main.c:262-264 | after a delete, a lookup misses that address and answers every other address as before |
| MacTable.AddKey | main.c:319-325 | `rte_hash_add_key` fails exactly when no free position exists, for stored and new keys alike; otherwise a stored key keeps and returns its position and the table is unchanged, and a new key takes the free position, is added, and every other key keeps its position |
| MacTable.DelKey | main.c:262-264 | deleting a key removes exactly that key and frees exactly its position |
| MacTable.Capacity | main.c:495-502 | the table never holds more than 256 addresses |
| MacTable.FullTableRejects | main.c:495-502 | with 256 addresses stored no position is free, so every add is rejected, of a new address or of a stored one, whatever position is offered |
| Devices.FindDevice | main.c:241-248 | the search finds the FIRST device with the given identity, or reports none exists; with (virtual, vid) a physical device with the same number never matches |
| SwitchState.Init | main.c:502-506 | the start-up state (empty list, empty table, all-NULL output table) satisfies the invariant |
| SwitchState.PortInit | main.c:184-196 | a successful allocation returns 0 and appends one READY physical device at the tail, existing devices keeping their order; allocation failure returns -1 and changes nothing |
| SwitchState.NewVdev | main.c:204-228 | a successful allocation returns 0 and appends one READY virtual device at the tail, existing devices keeping their order; allocation failure returns -1 and changes nothing |
| SwitchState.AttachPreservesValid | main.c:214-222 | attaching a device whose identity is not yet listed keeps the invariant, and the listed identities grow by exactly that one |
| SwitchState.LearnMacAddress | main.c:313-341 | -1 exactly when `rte_hash_add_key` fails (no free position), and then the switch is unchanged; on success the table is the one the add produced, a new address sits at the offered position, its entry names the sending device, and no other entry or stored position changes |
| SwitchState.LearnNoRewrite | main.c:319-330 | learning an address whose entry already names the sender's (virtual, id) performs no write; it returns 0 when a position is free and -1 otherwise |
| SwitchState.LearnIdempotent | main.c:319-330 | learning the same source address twice from the same device: the second learn changes nothing, and fails only when no position is free |
| SwitchState.LearnRebinds | main.c:319-330 | an address learned from device X and then seen from device Y keeps its position, whose entry now names Y when a position is free; with none free the learn fails and the entry still names X |
| SwitchState.LearnFullTable | main.c:319-325 | with the table full, learning any address, new or stored, returns -1 and leaves the switch unchanged |
| SwitchState.LearnPreservesValid | main.c:319-340 | learning from a listed device keeps table/output agreement and the rest of the invariant |
| SwitchState.MarkClosing | main.c:250-251 | the first detach phase marks only the chosen device CLOSING; the identities, the table and the output table are untouched |
| SwitchState.MarkClosingPreservesValid | main.c:250-251 | marking a virtual device CLOSING keeps the invariant |
| SwitchState.PurgeDevice | main.c:259-284 | after the purge every entry that named the device is NULL, entries naming other devices are unchanged, and an address is dropped exactly when its entry named the device |
| SwitchState.PurgeLoop | main.c:259-284 | the slot-by-slot purge loop (look up the key at the position, delete it, NULL the entry) computes exactly `PurgeDevice` |
| SwitchState.RemoveDevice | main.c:255-284 | the second detach phase removes that device, and only that device, from the list, sets every entry naming it to NULL and deletes the addresses stored at those positions |
| SwitchState.RemovePreservesValid | main.c:255-284 | removal keeps the invariant; afterwards the removed identity is no longer listed, and every other identity still is |
| SwitchState.DestroyVdev | main.c:235-290 | with no virtual device `vid` nothing changes; otherwise the first one is removed, every entry naming (virtual, vid) becomes NULL, its addresses are deleted, and other entries and addresses are untouched |
| SwitchState.DestroyPreservesValid | main.c:235-290 | detaching keeps the invariant, and afterwards neither the list nor any output entry names (virtual, vid) |
| Forwarding.Visit | main.c:365-379 | one loop iteration offers the frame exactly when the device is eligible; a virtual device gets the shared mbuf at most once, a physical non-ingress device one clone of its own, freed once, after its transmit, exactly when the port rejects it |
| Forwarding.BroadcastFrom | main.c:364-380 | the broadcast loop only enqueues the received mbuf (never transmits or frees it), and each clone belongs to a visited position |
| Forwarding.Broadcast | main.c:363-383 | the broadcast frees the received mbuf exactly once, as its last operation, and never transmits it: ports only get clones |
| Forwarding.SkipByIdentity | main.c:365 | with unique identities, skipping the ingress device by identity skips exactly the one device the pointer test skips |
| Forwarding.BroadcastFromDeliveries | main.c:364-380 | the broadcast loop offers the frame to exactly the devices other than the ingress one that are not CLOSING virtual devices, in list order |
| Forwarding.BroadcastFromOwnClone | main.c:364-380 | the clone made for one position is used by that position's iteration and by no other iteration of the loop |
| Forwarding.BroadcastFromClones | main.c:374-379 | each physical non-ingress device is sent exactly one clone of its own, and that clone is freed exactly once when the port accepts nothing, never otherwise |
| Forwarding.Unicast | main.c:387-396 | a virtual target gets the mbuf only if not CLOSING and the mbuf is freed once either way; a physical target is sent the mbuf itself, freed only when the port accepts nothing; at most one device is offered the frame; a free is always the last operation, so the mbuf is never used after it |
| Forwarding.Resolve | main.c:386 | resolving an output entry yields a listed device carrying that identity |
| Forwarding.ValidResolves | main.c:385-386 | under the invariant, every lookup hit has a non-NULL entry naming a listed device |
| Forwarding.ForwardPacket | main.c:351-397 | a miss broadcasts to the eligible devices in list order and frees the mbuf once at the end; a hit uses no clone and offers the frame to at most the one device its entry names (none if that device is CLOSING and virtual); the mbuf is never freed twice, and a free of it is the last operation |
| Forwarding.BroadcastBuffers | main.c:363-383 | on a miss, each physical non-ingress device gets one clone, freed exactly when rejected, and the mbuf is freed once |
| Forwarding.UnicastBuffers | main.c:385-396 | on a hit no clone is made; a virtual target's mbuf is freed once, a physical target is sent the mbuf once and it is freed exactly when rejected; the free comes after the hand-over |
| Forwarding.ClosingNeverEnqueued | main.c:368-389 | a CLOSING virtual device is never handed the frame, by broadcast or unicast |
| Forwarding.MarkClosingSuppresses | main.c:250-251 | once the first detach phase has marked a device CLOSING, forwarding stops handing it frames, though it is still listed and may still be named by output entries |
| Forwarding.DetachedNeverTarget | main.c:259-284 | after a detach, no frame is ever handed to the detached virtual device, even when an entry named it before |
| Forwarding.ProcessFrame | main.c:443-446 | one frame is learned and then forwarded on the learned state: the invariant is kept; with a free table position the source is bound to the ingress device, otherwise the state is unchanged; a miss on the learned table offers the frame to exactly the eligible devices in list order, a hit to at most the device its entry names; only listed devices are offered it, and a broadcast never returns to the ingress device |
| Forwarding.SelfAddressedReturns | main.c:385-391 | a frame addressed to its own source, with room to learn it, is handed back to exactly its ingress device (unless that is a CLOSING virtual device), because the learn precedes the lookup |
| Forwarding.ScenarioSwitch | main.c:184-222 | attaching port 0, then vids 0 and 1, to a fresh switch gives a valid switch listing exactly those three READY devices |
| Forwarding.ScenarioEligible | main.c:364-380 | in that list, a broadcast from vid 0 reaches port 0 and then vid 1, although port 0 and vid 0 share a number |
| Forwarding.ScenarioBroadcast | main.c:443-446 | a frame from vid 0 to an unknown address binds its source to vid 0 and is broadcast to port 0, then vid 1 |
| Forwarding.ScenarioReply | main.c:385-391 | the reply from vid 1 to the learned address is unicast to vid 0 only |
| Forwarding.TwoHostScenario | main.c:443-446 | the whole exchange: a broadcast to the other two devices, then a unicast reply |

## Left out

- The mutex, the `Dev_list_update` and `Force_exit` flags, the SIGINT handler
  and the forwarding thread loop (main.c:420-463). They exist for
  concurrency; the model has one frame step (`ProcessFrame`) and separates the
  two detach phases (`MarkClosing`, `RemoveDevice`). The forwarding thread can
  observe the state between those two phases.
- Receive bursts and the per-sweep polling of non-CLOSING devices
  (main.c:430-446). These are device I/O; a frame enters the model as a
  `Frame` together with its ingress device.
- DPDK port, queue, mempool, EAL and vhost driver setup, and session start
  (main.c:147-181, main.c:466-548). These are foreign library calls;
  `PortInit` models only the device-list insertion of `port_init`.
- Command-line parsing (main.c:93-128), `cleanup` (main.c:403-413) and all
  log output.
- The inside of `rte_hash`: buckets, signatures and which free position a new
  key gets. The free position the library takes first is a parameter
  `offer`. No offer, or an offer of a taken position, means no position is
  free, and the add fails with -ENOSPC.
- MacTable.AddKey: a cuckoo placement failure for a new key while positions
  remain free is not told apart from an empty free list; both are no offer.
  The rule that an add fails when no position is free, even for a stored
  key, follows the hash library of the DPDK releases with this vhost API,
  which take a free position before searching.
- Pointers became identities. `Output_table` holds `struct dev_info *`
  (main.c:72, main.c:330) and the broadcast skips the ingress device by
  pointer (main.c:365); the model stores and compares `DevKey(virtual, id)`.
  This is exact under the invariant's unique identities (`SkipByIdentity`);
  a list with a repeated identity, which the invariant rules out, would
  differ.
- mbuf memory. Buffers are named (`Original`, `Clone(i)`) and their frees are
  counted. `rte_pktmbuf_clone` returning NULL is not modelled, and neither
  are the vhost enqueue's own copy and its return value, which the code
  ignores.
- Whether a port's transmit accepts the frame is a parameter: the set
  `accepted` of ports whose `rte_eth_tx_burst` returns 1.
- SwitchState.DestroyVdev: assumes `rte_hash_get_key_with_position` and
  `rte_hash_del_key` succeed for every purged position. The code clears the
  entry even when the delete fails (main.c:264-282), which would break
  table/output agreement. Under the invariant the key at a named position
  always exists, so the delete cannot fail.
- SwitchState.AttachPreservesValid: requires the attached identity to be
  unlisted. The code does not check this (main.c:189-192, main.c:214-222).
  It relies on DPDK numbering ports and vhost devices uniquely.
- MacAddress.MacToUchar: `data_len` is the length of `data`, as the table
  always passes the key length. The `(int)` cast of a `data_len` above
  INT_MAX, which would skip the loop, is not modelled.
- Device numbers are unbounded integers rather than C `int`. The switch only
  compares them, so this changes nothing.

=== FILE: devices.dfy ===
/**
 * The device records of the switch (`struct dev_info`, main.h:13-27) and the
 * searches over the device list `Dev_list` (main.c:66).
 */
module Devices {
  import opened Wrappers

  /** enum device_state: a device is READY until its detach begins, then CLOSING. */
  datatype DevState = Ready | Closing

  /**
   * The identity of a device: its kind (physical port or virtual device) and
   * its number, which is a port id or a vhost vid. Numbers of the two kinds
   * overlap, so a device is only ever identified by the pair.
   */
  datatype DevKey = DevKey(virtual: bool, id: int)

  /** struct dev_info without its list linkage: kind, number and state. */
  datatype Device = Device(virtual: bool, id: int, state: DevState)
  {
    function Key(): DevKey
    {
      DevKey(virtual, id)
    }
  }

  /** The identities of the listed devices, in list order. */
  function Keys(devs: seq<Device>): (r: seq<DevKey>)
    ensures |r| == |devs|
    ensures forall i :: 0 <= i < |devs| ==> r[i] == devs[i].Key()
  {
    seq(|devs|, i requires 0 <= i < |devs| => devs[i].Key())
  }

  /** No identity is listed twice. */
  ghost predicate UniqueKeys(devs: seq<Device>)
  {
    forall i, j :: 0 <= i < j < |devs| ==> devs[i].Key() != devs[j].Key()
  }

  /**
   * The position of the first listed device with identity `key`, or None.
   * With `key` = (virtual, vid) this is the TAILQ_FOREACH search of
   * destroy_vdev_callback, which skips physical devices and stops at the first
   * virtual one whose number is `vid`.
   */
  function FindDevice(devs: seq<Device>, key: DevKey): (r: Option<nat>)
    ensures r.None? <==> key !in Keys(devs)
    ensures r.Some? ==> r.value < |devs| && devs[r.value].Key() == key
    ensures r.Some? ==> forall j :: 0 <= j < r.value ==> devs[j].Key() != key
  {
    if |devs| == 0 then None
    else if devs[0].Key() == key then Some(0)
    else
      match FindDevice(devs[1..], key)
      case None => None
      case Some(j) => Some(j + 1)
  }

  /** Under unique identities, the search finds exactly the device that carries the identity. */
  lemma FindUnique(devs: seq<Device>, i: nat)
    requires UniqueKeys(devs)
    requires i < |devs|
    ensures FindDevice(devs, devs[i].Key()) == Some(i)
  {
  }
}

=== FILE: forwarding.dfy ===
/**
 * The forwarding decision of forward_packet (main.c:350-397), as the sequence
 * of buffer operations it performs, and the per-frame step of the forwarding
 * thread: learn the source address, then forward (main.c:443-446).
 */
module Forwarding {
  import opened Wrappers
  import opened MacAddress
  import opened MacTable
  import opened Devices
  import opened SwitchState

  /** An Ethernet frame, as far as the switch reads it: destination and source address. */
  datatype Frame = Frame(dst: Mac, src: Mac)

  /** The buffers of one forward: the received mbuf, or the clone made for the device at list position `recipient`. */
  datatype Buf = Original | Clone(recipient: nat)

  /** One buffer operation of forward_packet. */
  datatype Action =
    | Enqueue(vid: int, buf: Buf)    // rte_vhost_enqueue_burst to a virtual device
    | Transmit(port: int, buf: Buf)  // rte_eth_tx_burst on a physical port
    | Free(buf: Buf)                 // rte_pktmbuf_free
  {
    /** Offering the frame to a device, as opposed to releasing a buffer. */
    predicate IsDelivery()
    {
      !Free?
    }

    /** The device the frame is offered to. */
    function Target(): DevKey
      requires IsDelivery()
    {
      if Enqueue? then DevKey(true, vid) else DevKey(false, port)
    }
  }

  /** The devices offered the frame, in the order of the operations. */
  function Deliveries(acts: seq<Action>): seq<DevKey>
  {
    if |acts| == 0 then []
    else (if acts[0].IsDelivery() then [acts[0].Target()] else []) + Deliveries(acts[1..])
  }

  lemma {:induction false} DeliveriesAppend(a: seq<Action>, b: seq<Action>)
    ensures Deliveries(a + b) == Deliveries(a) + Deliveries(b)
    decreases |a|
  {
    if |a| != 0 {
      assert (a + b)[1..] == a[1..] + b;
      DeliveriesAppend(a[1..], b);
    } else {
      assert a + b == b;
    }
  }

  /** Every delivery operation shows up among the deliveries. */
  lemma {:induction false} DeliveriesContain(acts: seq<Action>, i: nat)
    requires i < |acts| && acts[i].IsDelivery()
    ensures acts[i].Target() in Deliveries(acts)
    decreases i
  {
    if i > 0 {
      DeliveriesContain(acts[1..], i - 1);
    }
  }

  // ---------------------------------------------------------------------------
  // Broadcast
  // ---------------------------------------------------------------------------

  /** The devices offered the frame by one or two operations. */
  lemma DeliveriesShort(a: Action, b: Action)
    ensures Deliveries([a]) == (if a.IsDelivery() then [a.Target()] else [])
    ensures Deliveries([a, b]) == Deliveries([a]) + Deliveries([b])
  {
    assert [a, b][1..] == [b];
    assert [a][1..] == [];
  }

  /** Reference rule: a broadcast reaches every device except the ingress device and CLOSING virtual devices. */
  predicate BroadcastEligible(d: Device, ingress: DevKey)
  {
    d.Key() != ingress && !(d.virtual && d.state == Closing)
  }

  /** Reference: the identities of the eligible devices, in list order. */
  function EligibleKeys(devs: seq<Device>, ingress: DevKey): (r: seq<DevKey>)
    ensures forall k :: k in r ==> k in Keys(devs)
  {
    if |devs| == 0 then []
    else (if BroadcastEligible(devs[0], ingress) then [devs[0].Key()] else []) + EligibleKeys(devs[1..], ingress)
  }

  /**
   * The C loop skips the ingress device by pointer, the model by identity.
   * With unique identities the two agree: the device at position `g` is the
   * only one the identity test skips as ingress.
   */
  lemma SkipByIdentity(devs: seq<Device>, g: nat)
    requires UniqueKeys(devs) && g < |devs|
    ensures forall j :: 0 <= j < |devs| ==>
              (BroadcastEligible(devs[j], devs[g].Key()) <==> j != g && !(devs[j].virtual && devs[j].state == Closing))
  {
  }

  /** An identity no device of which is eligible is not among the eligible ones. */
  lemma {:induction false} NotEligibleKey(devs: seq<Device>, ingress: DevKey, k: DevKey)
    requires forall j :: 0 <= j < |devs| && devs[j].Key() == k ==> !BroadcastEligible(devs[j], ingress)
    ensures k !in EligibleKeys(devs, ingress)
  {
    if |devs| != 0 {
      NotEligibleKey(devs[1..], ingress, k);
    }
  }

  /**
   * One iteration of the broadcast loop, for the device at position `i`: the
   * ingress device is skipped; a virtual device gets the shared mbuf unless it
   * is CLOSING; a physical device, whatever its state, is sent a fresh clone,
   * which is freed when the port accepts nothing.
   */
  function Visit(d: Device, i: nat, ingress: DevKey, accepted: set<int>): (r: seq<Action>)
    ensures Deliveries(r) == (if BroadcastEligible(d, ingress) then [d.Key()] else [])
    ensures multiset(r)[Enqueue(d.id, Original)] == (if d.virtual && BroadcastEligible(d, ingress) then 1 else 0)
    ensures multiset(r)[Transmit(d.id, Clone(i))] == (if !d.virtual && d.Key() != ingress then 1 else 0)
    ensures multiset(r)[Free(Clone(i))] == (if !d.virtual && d.Key() != ingress && d.id !in accepted then 1 else 0)
    ensures Free(Clone(i)) in r ==> r[|r| - 1] == Free(Clone(i))
  {
    if d.Key() == ingress then []
    else if d.virtual then
      if d.state == Closing then [] else [Enqueue(d.id, Original)]
    else
      var r := [Transmit(d.id, Clone(i))] + (if d.id in accepted then [] else [Free(Clone(i))]);
      DeliveriesAppend([Transmit(d.id, Clone(i))], r[1..]);
      assert r == [Transmit(d.id, Clone(i))] + r[1..];
      r
  }

  /** The broadcast loop over the devices from position `i` on. */
  function BroadcastFrom(devs: seq<Device>, i: nat, ingress: DevKey, accepted: set<int>): (r: seq<Action>)
    requires i <= |devs|
    ensures forall a :: a in r && a.buf == Original ==> a.Enqueue?
    ensures forall a :: a in r && a.buf.Clone? ==> i <= a.buf.recipient < |devs|
    decreases |devs| - i
  {
    if i == |devs| then []
    else Visit(devs[i], i, ingress, accepted) + BroadcastFrom(devs, i + 1, ingress, accepted)
  }

  /**
   * The broadcast branch of forward_packet: the loop over the whole list,
   * then one release of the received mbuf. `accepted` holds the ports whose
   * transmit call takes the frame.
   */
  function Broadcast(devs: seq<Device>, ingress: DevKey, accepted: set<int>): (r: seq<Action>)
    ensures |r| > 0 && r[|r| - 1] == Free(Original)
    ensures multiset(r)[Free(Original)] == 1
    ensures forall a :: a in r && a.Transmit? ==> a.buf.Clone?
  {
    var loop := BroadcastFrom(devs, 0, ingress, accepted);
    assert Free(Original) !in multiset(loop);
    loop + [Free(Original)]
  }

  /** The broadcast loop offers the frame to exactly the eligible devices, in list order. */
  lemma {:induction false} BroadcastFromDeliveries(devs: seq<Device>, i: nat, ingress: DevKey, accepted: set<int>)
    requires i <= |devs|
    ensures Deliveries(BroadcastFrom(devs, i, ingress, accepted)) == EligibleKeys(devs[i..], ingress)
    decreases |devs| - i
  {
    if i < |devs| {
      var v := Visit(devs[i], i, ingress, accepted);
      BroadcastFromDeliveries(devs, i + 1, ingress, accepted);
      DeliveriesAppend(v, BroadcastFrom(devs, i + 1, ingress, accepted));
      assert devs[i..][1..] == devs[i + 1..];
    }
  }

  /**
   * The clone made for position `j` is touched only by the iteration for
   * position `j`: in the loop from `i <= j` on, each operation on that clone
   * occurs exactly as often as in that one iteration.
   */
  lemma {:induction false} BroadcastFromOwnClone(devs: seq<Device>, i: nat, ingress: DevKey, accepted: set<int>, j: nat, x: Action)
    requires i <= j < |devs| && x.buf == Clone(j)
    ensures multiset(BroadcastFrom(devs, i, ingress, accepted))[x] == multiset(Visit(devs[j], j, ingress, accepted))[x]
    decreases |devs| - i
  {
    BroadcastFromCount(devs, i, ingress, accepted, x);
    if i < j {
      NotInOtherVisit(devs[i], i, ingress, accepted, x);
      BroadcastFromOwnClone(devs, i + 1, ingress, accepted, j, x);
    } else {
      NotInLaterVisits(devs, i + 1, ingress, accepted, x);
    }
  }

  /** One step of the loop, counted: the first iteration's operations plus the rest's. */
  lemma BroadcastFromCount(devs: seq<Device>, i: nat, ingress: DevKey, accepted: set<int>, x: Action)
    requires i < |devs|
    ensures multiset(BroadcastFrom(devs, i, ingress, accepted))[x]
            == multiset(Visit(devs[i], i, ingress, accepted))[x] + multiset(BroadcastFrom(devs, i + 1, ingress, accepted))[x]
  {
    assert BroadcastFrom(devs, i, ingress, accepted)
           == Visit(devs[i], i, ingress, accepted) + BroadcastFrom(devs, i + 1, ingress, accepted);
  }

  /** An iteration never touches the clone of another position. */
  lemma NotInOtherVisit(d: Device, i: nat, ingress: DevKey, accepted: set<int>, x: Action)
    requires x.buf.Clone? && x.buf.recipient != i
    ensures multiset(Visit(d, i, ingress, accepted))[x] == 0
  {
  }

  /** The loop from position `i` on never touches the clone of an earlier position. */
  lemma NotInLaterVisits(devs: seq<Device>, i: nat, ingress: DevKey, accepted: set<int>, x: Action)
    requires i <= |devs| && x.buf.Clone? && x.buf.recipient < i
    ensures multiset(BroadcastFrom(devs, i, ingress, accepted))[x] == 0
  {
  }

  /**
   * Buffer accounting of the broadcast loop for the device at position `j`:
   * a physical non-ingress device is sent exactly one clone of its own, and
   * that clone is freed exactly once when the port does not accept it, never
   * otherwise.
   */
  lemma BroadcastFromClones(devs: seq<Device>, i: nat, ingress: DevKey, accepted: set<int>, j: nat)
    requires i <= j < |devs|
    ensures multiset(BroadcastFrom(devs, i, ingress, accepted))[Transmit(devs[j].id, Clone(j))]
            == (if !devs[j].virtual && devs[j].Key() != ingress then 1 else 0)
    ensures multiset(BroadcastFrom(devs, i, ingress, accepted))[Free(Clone(j))]
            == (if !devs[j].virtual && devs[j].Key() != ingress && devs[j].id !in accepted then 1 else 0)
  {
    BroadcastFromOwnClone(devs, i, ingress, accepted, j, Transmit(devs[j].id, Clone(j)));
    BroadcastFromOwnClone(devs, i, ingress, accepted, j, Free(Clone(j)));
  }

  // ---------------------------------------------------------------------------
  // Unicast
  // ---------------------------------------------------------------------------

  /**
   * The unicast branch of forward_packet for the device `t` the output entry
   * points at: a virtual device gets the mbuf only when it is not CLOSING,
   * and the mbuf is freed either way; a physical port is sent the mbuf
   * itself, which is freed only when the port accepts nothing.
   */
  function Unicast(t: Device, accepted: set<int>): (r: seq<Action>)
    ensures forall a :: a in r ==> a.buf == Original
    ensures t.virtual ==> (Enqueue(t.id, Original) in r <==> t.state != Closing) && multiset(r)[Free(Original)] == 1
    ensures !t.virtual ==> Transmit(t.id, Original) in r && multiset(r)[Free(Original)] == (if t.id in accepted then 0 else 1)
    ensures Deliveries(r) == (if t.virtual && t.state == Closing then [] else [t.Key()])
    ensures Free(Original) in r ==> r[|r| - 1] == Free(Original)
  {
    if t.virtual then
      DeliveriesShort(Enqueue(t.id, Original), Free(Original));
      DeliveriesShort(Free(Original), Free(Original));
      if t.state != Closing then [Enqueue(t.id, Original), Free(Original)] else [Free(Original)]
    else
      DeliveriesShort(Transmit(t.id, Original), Free(Original));
      if t.id in accepted then [Transmit(t.id, Original)] else [Transmit(t.id, Original), Free(Original)]
  }

  // ---------------------------------------------------------------------------
  // forward_packet
  // ---------------------------------------------------------------------------

  /**
   * What the unguarded dereference of a lookup hit needs: the position of a
   * stored destination has a non-NULL output entry naming a listed device.
   */
  ghost predicate HitResolves(sw: Switch, dst: Mac)
  {
    dst in sw.macMap ==>
      && sw.output[sw.macMap[dst]].Some?
      && sw.output[sw.macMap[dst]].value in Keys(sw.devices)
  }

  /** The switch invariant makes every lookup hit resolvable. */
  lemma ValidResolves(sw: Switch, dst: Mac)
    requires Valid(sw)
    ensures HitResolves(sw, dst)
  {
  }

  /** The device an output entry names: the listed device carrying its identity. */
  function Resolve(devs: seq<Device>, key: DevKey): (d: Device)
    requires key in Keys(devs)
    ensures d.Key() == key && d in devs
  {
    devs[FindDevice(devs, key).value]
  }

  /**
   * forward_packet: look the destination up; on a miss broadcast to every
   * device but the ingress one, on a hit unicast to the device the output
   * entry names. There is no fallback: a hit never broadcasts.
   */
  function ForwardPacket(sw: Switch, dst: Mac, ingress: DevKey, accepted: set<int>): (r: seq<Action>)
    requires HitResolves(sw, dst)
    ensures dst !in sw.macMap ==> Deliveries(r) == EligibleKeys(sw.devices, ingress)
    ensures dst !in sw.macMap ==> |r| > 0 && r[|r| - 1] == Free(Original) && multiset(r)[Free(Original)] == 1
    ensures dst in sw.macMap ==> forall a :: a in r ==> a.buf == Original
    ensures dst in sw.macMap ==>
              var t := Resolve(sw.devices, sw.output[sw.macMap[dst]].value);
              Deliveries(r) == (if t.virtual && t.state == Closing then [] else [t.Key()])
    ensures multiset(r)[Free(Original)] <= 1
    ensures Free(Original) in r ==> r[|r| - 1] == Free(Original)
  {
    match Lookup(sw.macMap, dst)
    case None =>
      BroadcastFromDeliveries(sw.devices, 0, ingress, accepted);
      DeliveriesAppend(BroadcastFrom(sw.devices, 0, ingress, accepted), [Free(Original)]);
      assert sw.devices[0..] == sw.devices;
      Broadcast(sw.devices, ingress, accepted)
    case Some(s) =>
      Unicast(Resolve(sw.devices, sw.output[s].value), accepted)
  }

  /**
   * Broadcast buffer accounting: on a miss every physical device other than
   * the ingress one is sent its own clone, freed exactly when the port
   * rejects it, and the received mbuf is freed once, after the loop.
   */
  lemma BroadcastBuffers(sw: Switch, dst: Mac, ingress: DevKey, accepted: set<int>, j: nat)
    requires dst !in sw.macMap
    requires j < |sw.devices| && !sw.devices[j].virtual && sw.devices[j].Key() != ingress
    ensures var r := ForwardPacket(sw, dst, ingress, accepted);
            && multiset(r)[Transmit(sw.devices[j].id, Clone(j))] == 1
            && multiset(r)[Free(Clone(j))] == (if sw.devices[j].id in accepted then 0 else 1)
            && multiset(r)[Free(Original)] == 1
  {
    BroadcastFromClones(sw.devices, 0, ingress, accepted, j);
  }

  /**
   * Unicast buffer accounting: on a hit no clone is made; the mbuf is handed
   * to the device the entry names and released after that, never before; a
   * virtual target's mbuf is freed once, a physical target's only when its
   * port rejects it.
   */
  lemma UnicastBuffers(sw: Switch, dst: Mac, ingress: DevKey, accepted: set<int>)
    requires HitResolves(sw, dst) && dst in sw.macMap
    ensures var t := Resolve(sw.devices, sw.output[sw.macMap[dst]].value);
            var r := ForwardPacket(sw, dst, ingress, accepted);
            && (forall a :: a in r ==> a.buf == Original)
            && (t.virtual ==> multiset(r)[Free(Original)] == 1)
            && (!t.virtual ==> multiset(r)[Transmit(t.id, Original)] == 1)
            && (!t.virtual ==> multiset(r)[Free(Original)] == (if t.id in accepted then 0 else 1))
            && (Free(Original) in r ==> r[|r| - 1] == Free(Original))
  {
  }

  /**
   * A CLOSING virtual device, as between the two phases of a detach, is never
   * handed the frame, whether it is broadcast or unicast.
   */
  lemma ClosingNeverEnqueued(sw: Switch, dst: Mac, ingress: DevKey, accepted: set<int>, j: nat)
    requires HitResolves(sw, dst) && UniqueKeys(sw.devices)
    requires j < |sw.devices| && sw.devices[j].virtual && sw.devices[j].state == Closing
    ensures forall a :: a in ForwardPacket(sw, dst, ingress, accepted) ==> !(a.Enqueue? && a.vid == sw.devices[j].id)
  {
    var r := ForwardPacket(sw, dst, ingress, accepted);
    if dst in sw.macMap {
      FindUnique(sw.devices, j);
    } else {
      NotEligibleKey(sw.devices, ingress, sw.devices[j].Key());
    }
    forall n | 0 <= n < |r| && r[n].Enqueue? ensures r[n].vid != sw.devices[j].id {
      DeliveriesContain(r, n);
    }
  }

  /** Marking a device CLOSING (the first phase of a detach) stops all forwarding to it at once. */
  lemma MarkClosingSuppresses(sw: Switch, i: nat, dst: Mac, ingress: DevKey, accepted: set<int>)
    requires Valid(sw)
    requires i < |sw.devices| && sw.devices[i].virtual
    ensures HitResolves(MarkClosing(sw, i), dst)
    ensures forall a :: a in ForwardPacket(MarkClosing(sw, i), dst, ingress, accepted) ==> !(a.Enqueue? && a.vid == sw.devices[i].id)
  {
    MarkClosingPreservesValid(sw, i);
    ClosingNeverEnqueued(MarkClosing(sw, i), dst, ingress, accepted, i);
  }

  /**
   * No dangling forward: once a virtual device is detached, no frame is ever
   * handed to it, even when an output entry named it before the detach.
   */
  lemma DetachedNeverTarget(sw: Switch, vid: int, dst: Mac, ingress: DevKey, accepted: set<int>)
    requires Valid(sw)
    ensures HitResolves(DestroyVdev(sw, vid), dst)
    ensures forall a :: a in ForwardPacket(DestroyVdev(sw, vid), dst, ingress, accepted) ==> !(a.Enqueue? && a.vid == vid)
  {
    var sw' := DestroyVdev(sw, vid);
    DestroyPreservesValid(sw, vid);
    var r := ForwardPacket(sw', dst, ingress, accepted);
    forall n | 0 <= n < |r| && r[n].Enqueue? ensures r[n].vid != vid {
      DeliveriesContain(r, n);
    }
  }

  // ---------------------------------------------------------------------------
  // One received frame
  // ---------------------------------------------------------------------------

  /**
   * One frame received from the listed device `ingress`: learn its source
   * address (ignoring a failed learn), then forward it on the updated state.
   * The invariant is what makes the forward's lookup hit safe to dereference.
   */
  function ProcessFrame(sw: Switch, f: Frame, ingress: DevKey, offer: Option<Slot>, accepted: set<int>): (r: (Switch, seq<Action>))
    requires Valid(sw) && ingress in Keys(sw.devices)
    ensures Valid(r.0)
    ensures r.0.devices == sw.devices
    ensures HasFree(sw.macMap, offer) ==> f.src in r.0.macMap && r.0.output[r.0.macMap[f.src]] == Some(ingress)
    ensures !HasFree(sw.macMap, offer) ==> r.0 == sw
    ensures forall k :: k in Deliveries(r.1) ==> k in Keys(sw.devices)
    ensures f.dst !in r.0.macMap ==> ingress !in Deliveries(r.1)
    ensures HitResolves(r.0, f.dst) && r.1 == ForwardPacket(r.0, f.dst, ingress, accepted)
    ensures f.dst !in r.0.macMap ==> Deliveries(r.1) == EligibleKeys(sw.devices, ingress)
    ensures f.dst in r.0.macMap ==>
              var t := Resolve(r.0.devices, r.0.output[r.0.macMap[f.dst]].value);
              Deliveries(r.1) == (if t.virtual && t.state == Closing then [] else [t.Key()])
  {
    var learned := LearnMacAddress(sw, f.src, ingress, offer).1;
    LearnPreservesValid(sw, f.src, ingress, offer);
    ValidResolves(learned, f.dst);
    NotEligibleKey(learned.devices, ingress, ingress);
    (learned, ForwardPacket(learned, f.dst, ingress, accepted))
  }

  /**
   * A frame addressed to its own source goes back out of its ingress device:
   * the learn binds the address first, so the forward is a unicast hit naming
   * the ingress device, which is not checked against the ingress device.
   */
  lemma SelfAddressedReturns(sw: Switch, a: Mac, ingress: DevKey, offer: Option<Slot>, accepted: set<int>)
    requires Valid(sw) && ingress in Keys(sw.devices) && HasFree(sw.macMap, offer)
    requires forall j :: 0 <= j < |sw.devices| && sw.devices[j].Key() == ingress ==> !(sw.devices[j].virtual && sw.devices[j].state == Closing)
    ensures Deliveries(ProcessFrame(sw, Frame(a, a), ingress, offer, accepted).1) == [ingress]
  {
    var r := ProcessFrame(sw, Frame(a, a), ingress, offer, accepted);
    var t := Resolve(r.0.devices, r.0.output[r.0.macMap[a]].value);
    var j :| 0 <= j < |sw.devices| && sw.devices[j] == t;
    assert sw.devices[j].Key() == ingress;
  }

  /** Physical port 0, then virtual devices 0 and 1, attached to a fresh switch. */
  function ScenarioSwitch(): (sw: Switch)
    ensures Valid(sw)
    ensures sw.devices == [Device(false, 0, Ready), Device(true, 0, Ready), Device(true, 1, Ready)]
    ensures |sw.macMap| == 0
  {
    var sw0 := Init();
    AttachPreservesValid(sw0, DevKey(false, 0), true);
    var sw1 := PortInit(sw0, 0, true).1;
    AttachPreservesValid(sw1, DevKey(true, 0), true);
    var sw2 := NewVdev(sw1, 0, true).1;
    AttachPreservesValid(sw2, DevKey(true, 1), true);
    NewVdev(sw2, 1, true).1
  }

  /** In the scenario list, a broadcast from virtual device 0 reaches port 0, then virtual device 1. */
  lemma ScenarioEligible()
    ensures EligibleKeys(ScenarioSwitch().devices, DevKey(true, 0)) == [DevKey(false, 0), DevKey(true, 1)]
  {
    var d := ScenarioSwitch().devices;
    var d2 := [Device(true, 1, Ready)];
    assert d2[1..] == [];
    assert EligibleKeys(d2, DevKey(true, 0)) == [DevKey(true, 1)];
    assert d[1..] == [Device(true, 0, Ready)] + d2;
    assert d[1..][1..] == d2;
    assert EligibleKeys(d[1..], DevKey(true, 0)) == [DevKey(true, 1)];
  }

  /**
   * The first frame of the two-host exchange: a frame from virtual device 0
   * with source `aa` to the unknown address `bb` teaches the switch that `aa`
   * is behind virtual device 0 and is broadcast to port 0, then to virtual
   * device 1, never back to virtual device 0. Port 0 and vid 0 share a number
   * but are different devices.
   */
  lemma ScenarioBroadcast(aa: Mac, bb: Mac, accepted: set<int>)
    requires aa != bb
    ensures var s1 := ProcessFrame(ScenarioSwitch(), Frame(bb, aa), DevKey(true, 0), Some(5), accepted);
            && s1.0.devices == ScenarioSwitch().devices
            && s1.0.macMap == map[aa := 5]
            && s1.0.output[5] == Some(DevKey(true, 0))
            && Deliveries(s1.1) == [DevKey(false, 0), DevKey(true, 1)]
  {
    var sw := ScenarioSwitch();
    var l1 := LearnMacAddress(sw, aa, DevKey(true, 0), Some(5));
    assert l1.1.macMap == map[aa := 5] && l1.1.devices == sw.devices;
    ScenarioEligible();
  }

  /**
   * The reply of the two-host exchange: once `aa` is known to be behind
   * virtual device 0, a frame from virtual device 1 back to `aa` is unicast
   * to virtual device 0 and to no other device.
   */
  lemma ScenarioReply(sw: Switch, aa: Mac, bb: Mac, accepted: set<int>)
    requires Valid(sw) && aa != bb
    requires sw.devices == ScenarioSwitch().devices
    requires sw.macMap == map[aa := 5] && sw.output[5] == Some(DevKey(true, 0))
    ensures Deliveries(ProcessFrame(sw, Frame(aa, bb), DevKey(true, 1), Some(7), accepted).1) == [DevKey(true, 0)]
  {
    var v0 := DevKey(true, 0);
    var l2 := LearnMacAddress(sw, bb, DevKey(true, 1), Some(7)).1;
    assert aa in l2.macMap && l2.macMap[aa] == 5 && l2.output[5] == Some(v0);
    assert l2.devices == sw.devices;
    FindUnique(sw.devices, 1);
    assert Resolve(l2.devices, v0) == Device(true, 0, Ready);
    assert ProcessFrame(sw, Frame(aa, bb), DevKey(true, 1), Some(7), accepted).1
        == ForwardPacket(l2, aa, DevKey(true, 1), accepted);
  }

  /** The whole two-host exchange: a broadcast to the other two devices, then a unicast reply. */
  lemma TwoHostScenario(aa: Mac, bb: Mac, accepted: set<int>)
    requires aa != bb
    ensures var s1 := ProcessFrame(ScenarioSwitch(), Frame(bb, aa), DevKey(true, 0), Some(5), accepted);
            && Deliveries(s1.1) == [DevKey(false, 0), DevKey(true, 1)]
            && Deliveries(ProcessFrame(s1.0, Frame(aa, bb), DevKey(true, 1), Some(7), accepted).1) == [DevKey(true, 0)]
  {
    ScenarioBroadcast(aa, bb, accepted);
    var s1 := ProcessFrame(ScenarioSwitch(), Frame(bb, aa), DevKey(true, 0), Some(5), accepted);
    ScenarioReply(s1.0, aa, bb, accepted);
  }
}

=== FILE: mac_address.dfy ===
/**
 * Ethernet hardware addresses and the hash function `mac_to_uchar` that the
 * MAC-to-output table is created with (main.c:296-304, main.c:499-500).
 */
module MacAddress {

  type byte = bv8

  /** Length of an Ethernet hardware address, in bytes (sizeof(struct ether_addr)). */
  const MacLen: nat := 6

  /** A 6-byte hardware address, the key of the MAC-to-output table. */
  type Mac = s: seq<byte> | |s| == MacLen witness [0, 0, 0, 0, 0, 0]

  /** Reference definition: the exclusive-or of all bytes of `data`. */
  function XorAll(data: seq<byte>): byte
  {
    if |data| == 0 then 0 else XorAll(data[..|data| - 1]) ^ data[|data| - 1]
  }

  /**
   * mac_to_uchar: folds every byte of `data` into the 32-bit accumulator
   * `initVal` with exclusive-or, first byte first. The hash table passes
   * key_len as `data_len`, so the whole key is folded.
   */
  method MacToUchar(data: seq<byte>, initVal: bv32) returns (r: bv32)
    ensures r == initVal ^ (XorAll(data) as bv32)
  {
    r := initVal;
    var i := 0;
    while i < |data|
      invariant 0 <= i <= |data|
      invariant r == initVal ^ (XorAll(data[..i]) as bv32)
    {
      FoldStep(initVal, data, i);
      r := r ^ (data[i] as bv32);
      i := i + 1;
    }
    assert data[..|data|] == data;
  }

  /** One step of the fold: folding byte `i` into the widened prefix fold extends the prefix. */
  lemma FoldStep(v: bv32, data: seq<byte>, i: nat)
    requires i < |data|
    ensures v ^ (XorAll(data[..i]) as bv32) ^ (data[i] as bv32) == v ^ (XorAll(data[..i + 1]) as bv32)
  {
    assert data[..i + 1][..i] == data[..i];
    WidenStep(v, XorAll(data[..i]), data[i]);
  }

  /** Zero-extending to 32 bits commutes with exclusive-or. */
  lemma WidenStep(v: bv32, a: byte, b: byte)
    ensures (v ^ (a as bv32)) ^ (b as bv32) == v ^ ((a ^ b) as bv32)
  {
  }

  /** Exclusive-or of two values below 256 stays below 256. */
  lemma WidenedByteBound(v: bv32, b: byte)
    requires v < 256
    ensures v ^ (b as bv32) < 256
  {
  }

  /** The hash the table is created with: `mac_to_uchar` with `init_val` 0, always below 256. */
  method MacHash(key: Mac) returns (r: bv32)
    ensures r < 256
    ensures r == XorAll(key) as bv32
  {
    r := MacToUchar(key, 0);
    WidenedByteBound(0, XorAll(key));
  }

  /** Folding a concatenation folds each part. */
  lemma {:induction false} XorAllAppend(a: seq<byte>, b: seq<byte>)
    ensures XorAll(a + b) == XorAll(a) ^ XorAll(b)
    decreases |b|
  {
    if |b| == 0 {
      assert a + b == a;
    } else {
      var b' := b[..|b| - 1];
      assert (a + b)[..|a + b| - 1] == a + b';
      assert (a + b)[|a + b| - 1] == b[|b| - 1];
      XorAllAppend(a, b');
    }
  }

  /** Taking one byte out of the middle of a sequence takes it out of the fold. */
  lemma XorAllRemove(b: seq<byte>, j: nat)
    requires j < |b|
    ensures XorAll(b) == XorAll(b[..j] + b[j + 1..]) ^ b[j]
  {
    var p, x, q := b[..j], b[j], b[j + 1..];
    assert (p + [x])[..|p + [x]| - 1] == p;
    assert b == (p + [x]) + q;
    XorAllAppend(p + [x], q);
    XorAllAppend(p, q);
  }

  /** Taking the element at `j` out of a sequence takes one occurrence of it out of its multiset. */
  lemma MultisetRemove(b: seq<byte>, j: nat)
    requires j < |b|
    ensures multiset(b[..j] + b[j + 1..]) == multiset(b) - multiset{b[j]}
  {
    assert b == b[..j] + [b[j]] + b[j + 1..];
  }

  /** The hash does not depend on byte order: any rearrangement of the bytes folds to the same value. */
  lemma {:induction false} XorAllPermutation(a: seq<byte>, b: seq<byte>)
    requires multiset(a) == multiset(b)
    ensures XorAll(a) == XorAll(b)
    decreases |a|
  {
    if |a| == 0 {
      assert |b| == |multiset(b)| == 0;
    } else {
      var x := a[|a| - 1];
      var a' := a[..|a| - 1];
      assert a == a' + [x];
      assert x in multiset(b);
      var j :| 0 <= j < |b| && b[j] == x;
      MultisetRemove(a, |a| - 1);
      MultisetRemove(b, j);
      XorAllPermutation(a', b[..j] + b[j + 1..]);
      XorAllRemove(b, j);
    }
  }
}

=== FILE: mac_table.dfy ===
/**
 * The MAC-to-output table `Mac_output_map` (main.c:59, main.c:71, main.c:494-502):
 * an `rte_hash` of capacity 256 whose entries are hardware addresses and whose
 * lookups return the key's position, used as an index into the output table.
 * Bucket layout and the choice of a free position are internal to the hash
 * library; the model keeps only what the switch relies on: every key holds its
 * own position, no two keys share one, and an insert may fail.
 */
module MacTable {
  import opened Wrappers
  import opened MacAddress

  /** NUM_HASH_ENTRIES: the capacity of the table and the length of the output table. */
  const NumHashEntries: nat := 256

  /** A position in the table, which doubles as an index into the output table. */
  type Slot = i: int | 0 <= i < NumHashEntries

  /** No two keys share a position. */
  ghost predicate Injective(m: map<Mac, Slot>)
  {
    forall k1, k2 :: k1 in m && k2 in m && k1 != k2 ==> m[k1] != m[k2]
  }

  /** The abstract contents of the hash table: each stored key and its position. */
  type MacMap = m: map<Mac, Slot> | Injective(m) witness map[]

  /** The outcome of `rte_hash_add_key`: the key's position, or a negative error. */
  datatype AddResult = Added(table: MacMap, slot: Slot) | NoSpace

  /** rte_hash_lookup: the key's position, or a miss. */
  function Lookup(m: MacMap, key: Mac): (r: Option<Slot>)
    ensures r.Some? <==> key in m
    ensures r.Some? ==> r.value == m[key]
  {
    if key in m then Some(m[key]) else None
  }

  /**
   * Whether the library has a free position for an insert: `offer` is the
   * position it takes from its free list before anything else, and None, or
   * a position already taken, means it has none.
   */
  predicate HasFree(m: MacMap, offer: Option<Slot>)
  {
    offer.Some? && offer.value !in m.Values
  }

  /**
   * rte_hash_add_key. The library first takes a free position and fails with
   * -ENOSPC when it has none, whether or not the key is stored. Then a key
   * already present keeps, and returns, its own position (the free one goes
   * back), and a new key takes the free position.
   */
  function AddKey(m: MacMap, key: Mac, offer: Option<Slot>): (r: AddResult)
    ensures r.NoSpace? <==> !HasFree(m, offer)
    ensures r.Added? && key in m ==> r.table == m && r.slot == m[key]
    ensures r.Added? && key !in m ==> r.slot == offer.value
    ensures r.Added? ==> key in r.table && r.table[key] == r.slot
    ensures r.Added? ==> r.table.Keys == m.Keys + {key}
    ensures r.Added? ==> forall k :: k in m ==> r.table[k] == m[k]
    ensures r.Added? && key !in m ==> r.slot !in m.Values
  {
    if !HasFree(m, offer) then NoSpace
    else if key in m then Added(m, m[key])
    else
      var s := offer.value;
      var t := m[key := s];
      assert Injective(t) by {
        forall k1, k2 | k1 in t && k2 in t && k1 != k2
          ensures t[k1] != t[k2]
        {
          if k1 != key && k2 != key {
            assert t[k1] == m[k1] && t[k2] == m[k2];
          } else if k1 == key {
            assert t[k2] == m[k2] && m[k2] in m.Values;
          } else {
            assert t[k1] == m[k1] && m[k1] in m.Values;
          }
        }
      }
      Added(t, s)
  }

  /** rte_hash_del_key: removes `key` and frees its position. */
  function DelKey(m: MacMap, key: Mac): (r: MacMap)
    ensures r.Keys == m.Keys - {key}
    ensures key in m ==> r.Values == m.Values - {m[key]}
    ensures forall k :: k in r ==> r[k] == m[k]
  {
    var r := m - {key};
    assert key in m ==> r.Values == m.Values - {m[key]} by {
      if key in m {
        forall s | s in m.Values - {m[key]} ensures s in r.Values {
          var k :| k in m && m[k] == s;
          assert k != key && k in r;
        }
      }
    }
    r
  }

  /**
   * A lookup after a successful add finds the added key at the position the
   * add returned, and answers every other key as before.
   */
  lemma LookupAfterAdd(m: MacMap, key: Mac, offer: Option<Slot>, other: Mac)
    requires AddKey(m, key, offer).Added?
    ensures Lookup(AddKey(m, key, offer).table, key) == Some(AddKey(m, key, offer).slot)
    ensures other != key ==> Lookup(AddKey(m, key, offer).table, other) == Lookup(m, other)
  {
  }

  /** A lookup after a delete misses the deleted key and answers every other key as before. */
  lemma LookupAfterDel(m: MacMap, key: Mac, other: Mac)
    ensures Lookup(DelKey(m, key), key).None?
    ensures other != key ==> Lookup(DelKey(m, key), other) == Lookup(m, other)
  {
  }

  /** The set of all positions, 0 .. n-1. */
  function Positions(n: nat): (r: set<int>)
    ensures forall i :: i in r <==> 0 <= i < n
    ensures |r| == n
  {
    if n == 0 then {} else
      var r := Positions(n - 1) + {n - 1};
      assert n - 1 !in Positions(n - 1);
      r
  }

  /** An injective table has as many occupied positions as keys. */
  lemma {:induction false} OccupiedCount(m: MacMap)
    ensures |m.Values| == |m.Keys|
    decreases |m.Keys|
  {
    if |m.Keys| != 0 {
      var k :| k in m;
      var m' := DelKey(m, k);
      OccupiedCount(m');
    } else {
      assert m.Values == {};
    }
  }

  /** A subset is no larger than its superset, and equal to it when as large. */
  lemma SubsetCount(a: set<int>, b: set<int>)
    requires a <= b
    ensures |a| <= |b|
    ensures |a| == |b| ==> a == b
  {
    assert b == a + (b - a);
    assert |b| == |a| + |b - a|;
    if |a| == |b| {
      assert b - a == {};
    }
  }

  /** The table never holds more than NUM_HASH_ENTRIES keys. */
  lemma Capacity(m: MacMap)
    ensures |m| <= NumHashEntries
  {
    OccupiedCount(m);
    SubsetCount(m.Values, Positions(NumHashEntries));
  }

  /**
   * Capacity policy: once NUM_HASH_ENTRIES keys are stored every position is
   * taken, so no free position exists and every insert is rejected whatever
   * the table offers, that of a stored key included.
   */
  lemma FullTableRejects(m: MacMap, key: Mac, offer: Option<Slot>)
    requires |m| == NumHashEntries
    ensures !HasFree(m, offer)
    ensures AddKey(m, key, offer) == NoSpace
  {
    OccupiedCount(m);
    SubsetCount(m.Values, Positions(NumHashEntries));
    if offer.Some? {
      assert offer.value in m.Values;
    }
  }
}

=== FILE: switch_state.dfy ===
/**
 * The control state of the learning switch and its transitions: the device
 * list `Dev_list`, the MAC-to-output table `Mac_output_map` and the output
 * table `Output_table` (main.c:66-72), changed by port initialisation, the
 * vhost attach and detach callbacks, and source-address learning.
 */
module SwitchState {
  import opened Wrappers
  import opened MacAddress
  import opened MacTable
  import opened Devices

  /**
   * Output_table: for every table position, the identity of the device the
   * address stored there was last learned from, or None for a NULL entry.
   */
  type OutputTable = s: seq<Option<DevKey>> | |s| == NumHashEntries witness seq(NumHashEntries, _ => None)

  /** The switch: device list in insertion order, MAC-to-output table, output table. */
  datatype Switch = Switch(devices: seq<Device>, macMap: MacMap, output: OutputTable)

  /** Start-up state: empty device list, empty table, zeroed output table (main.c:502-506). */
  function Init(): (r: Switch)
    ensures Valid(r)
    ensures |r.devices| == 0 && |r.macMap| == 0
  {
    Switch([], map[], seq(NumHashEntries, _ => None))
  }

  /** Physical ports are never detached, so they stay READY. */
  ghost predicate PhysicalReady(devs: seq<Device>)
  {
    forall i :: 0 <= i < |devs| && !devs[i].virtual ==> devs[i].state == Ready
  }

  /** A position is stored in the MAC table exactly when its output entry is non-NULL. */
  ghost predicate TableAgrees(sw: Switch)
  {
    forall s :: 0 <= s < NumHashEntries ==> (sw.output[s].Some? <==> s in sw.macMap.Values)
  }

  /** Every non-NULL output entry names a device that is still listed. */
  ghost predicate TargetsListed(sw: Switch)
  {
    forall s :: 0 <= s < NumHashEntries && sw.output[s].Some? ==> sw.output[s].value in Keys(sw.devices)
  }

  /** The invariant every transition keeps. */
  ghost predicate Valid(sw: Switch)
  {
    && UniqueKeys(sw.devices)
    && PhysicalReady(sw.devices)
    && TableAgrees(sw)
    && TargetsListed(sw)
  }

  // ---------------------------------------------------------------------------
  // Attaching devices
  // ---------------------------------------------------------------------------

  /**
   * Allocate a READY device with identity `key` and insert it at the tail of the
   * list; when the allocation fails (`allocOk` false) return -1 and leave the
   * switch unchanged.
   */
  function Attach(sw: Switch, key: DevKey, allocOk: bool): (r: (int, Switch))
  {
    if !allocOk then (-1, sw)
    else (0, sw.(devices := sw.devices + [Device(key.virtual, key.id, Ready)]))
  }

  /** The list insertion of port_init: a READY physical device for `portid` joins the tail. */
  function PortInit(sw: Switch, portid: int, allocOk: bool): (r: (int, Switch))
    ensures r.0 == -1 <==> !allocOk
    ensures allocOk ==> r.0 == 0
    ensures r.0 == -1 ==> r.1 == sw
    ensures r.0 == 0 ==> |r.1.devices| == |sw.devices| + 1
    ensures r.0 == 0 ==> r.1.devices[..|sw.devices|] == sw.devices
    ensures r.0 == 0 ==> r.1.devices[|sw.devices|] == Device(false, portid, Ready)
    ensures r.1.macMap == sw.macMap && r.1.output == sw.output
  {
    Attach(sw, DevKey(false, portid), allocOk)
  }

  /** new_vdev_callback: a READY virtual device for `vid` joins the tail of the list. */
  function NewVdev(sw: Switch, vid: int, allocOk: bool): (r: (int, Switch))
    ensures r.0 == -1 <==> !allocOk
    ensures allocOk ==> r.0 == 0
    ensures r.0 == -1 ==> r.1 == sw
    ensures r.0 == 0 ==> |r.1.devices| == |sw.devices| + 1
    ensures r.0 == 0 ==> r.1.devices[..|sw.devices|] == sw.devices
    ensures r.0 == 0 ==> r.1.devices[|sw.devices|] == Device(true, vid, Ready)
    ensures r.1.macMap == sw.macMap && r.1.output == sw.output
  {
    Attach(sw, DevKey(true, vid), allocOk)
  }

  /** Attaching a device whose identity is not yet listed keeps the invariant. */
  lemma AttachPreservesValid(sw: Switch, key: DevKey, allocOk: bool)
    requires Valid(sw)
    requires key !in Keys(sw.devices)
    ensures Valid(Attach(sw, key, allocOk).1)
    ensures Keys(Attach(sw, key, allocOk).1.devices) == Keys(sw.devices) + (if allocOk then [key] else [])
  {
    var r := Attach(sw, key, allocOk).1;
    if allocOk {
      assert Keys(r.devices) == Keys(sw.devices) + [key];
      forall i, j | 0 <= i < j < |r.devices| ensures r.devices[i].Key() != r.devices[j].Key() {
        if j == |sw.devices| {
          assert r.devices[i].Key() == Keys(sw.devices)[i];
        }
      }
    }
  }

  // ---------------------------------------------------------------------------
  // Learning source addresses
  // ---------------------------------------------------------------------------

  /**
   * learn_mac_address: store the source address `src` of a frame received from
   * the device `sdev`, then point its output entry at `sdev` unless it already
   * names a device of the same kind and number. Returns -1, changing nothing,
   * when the table has no free position, even for an address already stored;
   * 0 otherwise.
   */
  function LearnMacAddress(sw: Switch, src: Mac, sdev: DevKey, offer: Option<Slot>): (r: (int, Switch))
    ensures r.0 == 0 || r.0 == -1
    ensures r.0 == -1 <==> !HasFree(sw.macMap, offer)
    ensures r.0 == -1 <==> AddKey(sw.macMap, src, offer).NoSpace?
    ensures r.0 == -1 ==> r.1 == sw
    ensures r.0 == 0 ==> r.1.macMap == AddKey(sw.macMap, src, offer).table
    ensures r.0 == 0 && src !in sw.macMap ==> r.1.macMap[src] == offer.value
    ensures r.0 == 0 ==> r.1.devices == sw.devices
    ensures r.0 == 0 ==> r.1.macMap.Keys == sw.macMap.Keys + {src}
    ensures r.0 == 0 ==> forall k :: k in sw.macMap ==> r.1.macMap[k] == sw.macMap[k]
    ensures r.0 == 0 ==> r.1.output[r.1.macMap[src]] == Some(sdev)
    ensures r.0 == 0 ==> forall s :: 0 <= s < NumHashEntries && s != r.1.macMap[src] ==> r.1.output[s] == sw.output[s]
  {
    match AddKey(sw.macMap, src, offer)
    case NoSpace => (-1, sw)
    case Added(m, s) =>
      var cur := sw.output[s];
      if cur.None? || cur.value.virtual != sdev.virtual || cur.value.id != sdev.id then
        (0, sw.(macMap := m, output := sw.output[s := Some(sdev)]))
      else
        (0, sw.(macMap := m))
  }

  /**
   * Learning an address whose entry already names the sending device writes
   * nothing: it succeeds when the table has a free position and fails
   * otherwise, with the switch unchanged either way.
   */
  lemma LearnNoRewrite(sw: Switch, src: Mac, sdev: DevKey, offer: Option<Slot>)
    requires src in sw.macMap && sw.output[sw.macMap[src]] == Some(sdev)
    ensures LearnMacAddress(sw, src, sdev, offer) == (if HasFree(sw.macMap, offer) then 0 else -1, sw)
  {
    assert sw.(macMap := sw.macMap) == sw;
  }

  /**
   * Learning is idempotent: a second learn of the same address from the same
   * device changes nothing, and reports failure only when no position is free.
   */
  lemma LearnIdempotent(sw: Switch, src: Mac, sdev: DevKey, offer: Option<Slot>, offer': Option<Slot>)
    requires LearnMacAddress(sw, src, sdev, offer).0 == 0
    ensures var sw' := LearnMacAddress(sw, src, sdev, offer).1;
            LearnMacAddress(sw', src, sdev, offer') == (if HasFree(sw'.macMap, offer') then 0 else -1, sw')
  {
    LearnNoRewrite(LearnMacAddress(sw, src, sdev, offer).1, src, sdev, offer');
  }

  /**
   * Relearning on a move: an address learned from `x` and then sent by `y`
   * keeps its position, whose entry now names `y` when the table has a free
   * position; without one the learn fails and the entry still names `x`.
   */
  lemma LearnRebinds(sw: Switch, src: Mac, x: DevKey, y: DevKey, offer: Option<Slot>, offer': Option<Slot>)
    requires LearnMacAddress(sw, src, x, offer).0 == 0
    ensures var sw1 := LearnMacAddress(sw, src, x, offer).1;
            var r := LearnMacAddress(sw1, src, y, offer');
            HasFree(sw1.macMap, offer') ==>
              && r.0 == 0
              && r.1.macMap == sw1.macMap
              && r.1.output[sw1.macMap[src]] == Some(y)
    ensures var sw1 := LearnMacAddress(sw, src, x, offer).1;
            !HasFree(sw1.macMap, offer') ==>
              && LearnMacAddress(sw1, src, y, offer') == (-1, sw1)
              && sw1.output[sw1.macMap[src]] == Some(x)
  {
  }

  /**
   * Capacity policy: with NUM_HASH_ENTRIES addresses stored, every learn, of
   * a new address or of a stored one, is rejected with -1 and leaves the
   * switch as it was; in particular a stored address is not rebound.
   */
  lemma LearnFullTable(sw: Switch, src: Mac, sdev: DevKey, offer: Option<Slot>)
    requires |sw.macMap| == NumHashEntries
    ensures LearnMacAddress(sw, src, sdev, offer) == (-1, sw)
  {
    FullTableRejects(sw.macMap, src, offer);
  }

  /** Learning from a listed device keeps the invariant. */
  lemma LearnPreservesValid(sw: Switch, src: Mac, sdev: DevKey, offer: Option<Slot>)
    requires Valid(sw)
    requires sdev in Keys(sw.devices)
    ensures Valid(LearnMacAddress(sw, src, sdev, offer).1)
  {
    var r := LearnMacAddress(sw, src, sdev, offer);
    if r.0 == 0 {
      var sw' := r.1;
      var slot := sw'.macMap[src];
      assert sw'.macMap.Values == sw.macMap.Values + {slot} by {
        forall s | s in sw'.macMap.Values ensures s in sw.macMap.Values + {slot} {
          var k :| k in sw'.macMap && sw'.macMap[k] == s;
          if k != src {
            assert k in sw.macMap;
          }
        }
        forall s | s in sw.macMap.Values ensures s in sw'.macMap.Values {
          var k :| k in sw.macMap && sw.macMap[k] == s;
          assert sw'.macMap[k] == s;
        }
      }
    }
  }

  // ---------------------------------------------------------------------------
  // Detaching virtual devices
  // ---------------------------------------------------------------------------

  /**
   * First phase of destroy_vdev_callback, before the list lock is taken: the
   * device at position `i` is marked CLOSING in place, so the forwarding thread
   * stops reading from and writing to it.
   */
  function MarkClosing(sw: Switch, i: nat): (r: Switch)
    requires i < |sw.devices|
    ensures |r.devices| == |sw.devices|
    ensures Keys(r.devices) == Keys(sw.devices)
    ensures r.devices[i].state == Closing
    ensures forall j :: 0 <= j < |sw.devices| && j != i ==> r.devices[j] == sw.devices[j]
    ensures r.macMap == sw.macMap && r.output == sw.output
  {
    sw.(devices := sw.devices[i := sw.devices[i].(state := Closing)])
  }

  /**
   * Invalidate every output entry naming `key`, deleting the address stored at
   * that position from the MAC table.
   */
  function PurgeDevice(m: MacMap, out: OutputTable, key: DevKey): (r: (MacMap, OutputTable))
    ensures forall s :: 0 <= s < NumHashEntries ==> r.1[s] != Some(key)
    ensures forall s :: 0 <= s < NumHashEntries && out[s] == Some(key) ==> r.1[s].None?
    ensures forall s :: 0 <= s < NumHashEntries && out[s] != Some(key) ==> r.1[s] == out[s]
    ensures forall k :: k in r.0 <==> k in m && out[m[k]] != Some(key)
    ensures forall k :: k in r.0 ==> r.0[k] == m[k]
  {
    var m' := map k | k in m && out[m[k]] != Some(key) :: m[k];
    var out' := seq(NumHashEntries, s requires 0 <= s < NumHashEntries => if out[s] == Some(key) then None else out[s]);
    (m', out')
  }

  /**
   * The purge loop of destroy_vdev_callback, position by position: an entry
   * naming the virtual device `vid` has the address stored at its position
   * looked up (rte_hash_get_key_with_position) and deleted, then is set to NULL.
   */
  method PurgeLoop(m: MacMap, out: OutputTable, vid: int) returns (m': MacMap, out': OutputTable)
    ensures (m', out') == PurgeDevice(m, out, DevKey(true, vid))
  {
    ghost var key := DevKey(true, vid);
    m', out' := m, out;
    var i := 0;
    while i < NumHashEntries
      invariant 0 <= i <= NumHashEntries
      invariant forall s :: 0 <= s < i ==> out'[s] == (if out[s] == Some(key) then None else out[s])
      invariant forall s :: i <= s < NumHashEntries ==> out'[s] == out[s]
      invariant forall k :: k in m' <==> k in m && !(m[k] < i && out[m[k]] == Some(key))
      invariant forall k :: k in m' ==> m'[k] == m[k]
    {
      if out'[i].Some? && out'[i].value.virtual && out'[i].value.id == vid {
        if k :| k in m' && m'[k] == i {
          m' := DelKey(m', k);
        }
        out' := out'[i := None];
      }
      i := i + 1;
    }
    var r := PurgeDevice(m, out, key);
    assert m'.Keys == r.0.Keys;
    assert forall k :: k in m' ==> m'[k] == r.0[k];
    assert m' == r.0;
    assert forall s :: 0 <= s < NumHashEntries ==> out'[s] == r.1[s];
    assert out' == r.1;
  }

  /**
   * Second phase of destroy_vdev_callback, under the list lock: the device at
   * position `i` leaves the list and every output entry naming it is purged.
   */
  function RemoveDevice(sw: Switch, i: nat): (r: Switch)
    requires i < |sw.devices|
    ensures r.devices == sw.devices[..i] + sw.devices[i + 1..]
    ensures forall s :: 0 <= s < NumHashEntries ==> r.output[s] != Some(sw.devices[i].Key())
    ensures forall s :: 0 <= s < NumHashEntries && sw.output[s] == Some(sw.devices[i].Key()) ==> r.output[s].None?
    ensures forall s :: 0 <= s < NumHashEntries && sw.output[s] != Some(sw.devices[i].Key()) ==> r.output[s] == sw.output[s]
    ensures forall k :: k in r.macMap <==> k in sw.macMap && sw.output[sw.macMap[k]] != Some(sw.devices[i].Key())
    ensures forall k :: k in r.macMap ==> r.macMap[k] == sw.macMap[k]
  {
    var p := PurgeDevice(sw.macMap, sw.output, sw.devices[i].Key());
    Switch(sw.devices[..i] + sw.devices[i + 1..], p.0, p.1)
  }

  /**
   * destroy_vdev_callback(vid): find the first virtual device numbered `vid`;
   * if there is none nothing changes, otherwise mark it CLOSING, remove it and
   * purge the entries naming it.
   */
  function DestroyVdev(sw: Switch, vid: int): (r: Switch)
    ensures DevKey(true, vid) !in Keys(sw.devices) ==> r == sw
    ensures DevKey(true, vid) in Keys(sw.devices) ==>
      var i := FindDevice(sw.devices, DevKey(true, vid)).value;
      && sw.devices[i].virtual && sw.devices[i].id == vid
      && r.devices == sw.devices[..i] + sw.devices[i + 1..]
      && (forall s :: 0 <= s < NumHashEntries ==> r.output[s] != Some(DevKey(true, vid)))
      && (forall s :: 0 <= s < NumHashEntries && sw.output[s] == Some(DevKey(true, vid)) ==> r.output[s].None?)
      && (forall s :: 0 <= s < NumHashEntries && sw.output[s] != Some(DevKey(true, vid)) ==> r.output[s] == sw.output[s])
      && (forall k :: k in r.macMap <==> k in sw.macMap && sw.output[sw.macMap[k]] != Some(DevKey(true, vid)))
      && (forall k :: k in r.macMap ==> r.macMap[k] == sw.macMap[k])
  {
    match FindDevice(sw.devices, DevKey(true, vid))
    case None => sw
    case Some(i) => RemoveDevice(MarkClosing(sw, i), i)
  }

  /** Marking a virtual device CLOSING keeps the invariant. */
  lemma MarkClosingPreservesValid(sw: Switch, i: nat)
    requires Valid(sw)
    requires i < |sw.devices| && sw.devices[i].virtual
    ensures Valid(MarkClosing(sw, i))
  {
    var r := MarkClosing(sw, i);
    forall a, b | 0 <= a < b < |r.devices| ensures r.devices[a].Key() != r.devices[b].Key() {
      assert r.devices[a].Key() == Keys(sw.devices)[a] && r.devices[b].Key() == Keys(sw.devices)[b];
    }
  }

  /** Removing a listed device keeps the invariant, and its identity is no longer listed. */
  lemma RemovePreservesValid(sw: Switch, i: nat)
    requires Valid(sw)
    requires i < |sw.devices|
    ensures Valid(RemoveDevice(sw, i))
    ensures sw.devices[i].Key() !in Keys(RemoveDevice(sw, i).devices)
    ensures forall k :: k in Keys(sw.devices) && k != sw.devices[i].Key() ==> k in Keys(RemoveDevice(sw, i).devices)
  {
    var r := RemoveDevice(sw, i);
    var devs := sw.devices;
    var key := devs[i].Key();
    // position j of the new list holds the old device at j, or at j + 1 from i on
    assert forall j :: 0 <= j < |r.devices| ==> r.devices[j] == devs[if j < i then j else j + 1];
    forall a, b | 0 <= a < b < |r.devices| ensures r.devices[a].Key() != r.devices[b].Key() {
      var a', b' := (if a < i then a else a + 1), (if b < i then b else b + 1);
      assert a' < b';
    }
    forall j | 0 <= j < |r.devices| ensures Keys(r.devices)[j] != key {
      var j' := if j < i then j else j + 1;
      assert r.devices[j] == devs[j'];
    }
    forall k | k in Keys(devs) && k != key ensures k in Keys(r.devices) {
      var j :| 0 <= j < |devs| && Keys(devs)[j] == k;
      assert j != i;
      var j' := if j < i then j else j - 1;
      assert Keys(r.devices)[j'] == k;
    }
    forall s | 0 <= s < NumHashEntries ensures (r.output[s].Some? <==> s in r.macMap.Values) {
      if sw.output[s] == Some(key) || sw.output[s].None? {
        forall k | k in r.macMap ensures r.macMap[k] != s {
          assert r.macMap[k] == sw.macMap[k];
        }
      } else {
        var k :| k in sw.macMap && sw.macMap[k] == s;
        assert k in r.macMap;
      }
    }
  }

  /**
   * Detaching keeps the invariant, and afterwards the device is gone: no
   * listed device and no output entry names (virtual, vid).
   */
  lemma DestroyPreservesValid(sw: Switch, vid: int)
    requires Valid(sw)
    ensures Valid(DestroyVdev(sw, vid))
    ensures DevKey(true, vid) !in Keys(DestroyVdev(sw, vid).devices)
    ensures forall s :: 0 <= s < NumHashEntries ==> DestroyVdev(sw, vid).output[s] != Some(DevKey(true, vid))
  {
    match FindDevice(sw.devices, DevKey(true, vid))
    case None =>
      forall s | 0 <= s < NumHashEntries ensures sw.output[s] != Some(DevKey(true, vid)) {
      }
    case Some(i) =>
      MarkClosingPreservesValid(sw, i);
      RemovePreservesValid(MarkClosing(sw, i), i);
  }
}

=== FILE: wrappers.dfy ===
/** Small shared datatypes. */
module Wrappers {

  /** An optional value, standing in for the source's nullable pointers and negative error returns. */
  datatype Option<+T> = None | Some(value: T)
}
